=== FILE: README.md ===
# AssignCheck: a Dafny model of the upload, extraction and rendering logic

AssignCheck is a single-page web application. A student uploads an assignment and a grading-criteria document, each a `.docx` or `.pdf`. The browser extracts plain text from both, sends the texts to a hosted language model, and shows the grade and the feedback it returns. This project models the local logic of that application and proves properties of it.

- **Text extraction** (`helpers/fileReader.ts`). Dispatch on the declared MIME type, the shared file-read wrapper and its error paths, and the PDF page loop. Modules `FileReader` and `Text`.
- **Report rendering** (`components/ResultsDisplay.tsx`). `getGradeColor`, and `markdownToHtml`, which turns the model's free text into an unescaped `<ul>` list. Modules `ResultsDisplay`, `Text` and `Trim`. `Trim` models JavaScript's `String.prototype.trim` over the ECMAScript whitespace and line-terminator characters.
- **The flow controller** (`App.tsx`). Module `App` holds the seven state hooks as one immutable record, with each handler as a pure transition. A handler that awaits is split into a start and a settle transition. Module `Flow` adds:
  - the set of operations in flight;
  - which events the rendered page offers, from its `disabled=` attributes and conditional rendering;
  - the invariant every reachable session keeps.
- **The grading call** (`src/services/geminiService.ts`), seen only from the application. Module `GradingClient` decides the API-key check and the error messages locally. Everything the service did is an input.
- **The data types** (`src/types.ts`) are in module `Types`. A thrown value is either an `Error`, carrying its message, or something else. `App` shows `err.message` for the first and a fixed fallback text for the second.

The browser `FileReader`, mammoth and pdf.js are not modelled as code. Their outcomes are parameters:
- a `ReadOutcome`;
- a function from bytes to the parser's result;
- a `PdfDocument` whose pages each hold text items or failed to load.

## Model

| member | source | states |
|---|---|---|
| FileReader.FormatOf | helpers/fileReader.ts:7-14 | Dispatch is by exact string match. The DOCX MIME string and only it selects DOCX, `application/pdf` and only it selects PDF, and every other type selects neither. |
| FileReader.OnRead | helpers/fileReader.ts:20-32 | A loaded buffer goes to the parser, whose result (text or error) is returned unchanged. A null read result fails with "Failed to read file". A reader error rejects with the reader's own event. |
| FileReader.ExtractTextFromDocx | helpers/fileReader.ts:17-35 | Succeeds only after a loaded buffer, and then with exactly mammoth's value. A mammoth rejection is passed on unchanged, a null read result fails with "Failed to read file", and a reader error rejects with its event. |
| FileReader.ExtractTextFromPdf | helpers/fileReader.ts:37-61 | Succeeds only when the buffer loaded, pdf.js opened it and every page was read, and then with the page concatenation. A null read result fails with "Failed to read file", and a reader error rejects with its event. |
| FileReader.ExtractTextFromFile | helpers/fileReader.ts:6-15 | An unsupported type fails with "Unsupported file type. Please upload a .docx or .pdf file.", whatever the read and the parsers would give. A DOCX gives exactly mammoth's result, and a PDF gives exactly the page concatenation of pdf.js's document. A missing read result or a reader error fails the same way for both formats. Success implies a supported type and a loaded buffer. |
| FileReader.ConcatPagesLoop | helpers/fileReader.ts:44-53 | The loop over pages `1..numPages` (1-based counter, running text, early exit on the first failing page) computes the same result as the fold `ConcatPages`. |
| FileReader.ConcatPages | helpers/fileReader.ts:44-53 | The fold over the pages succeeds exactly when every page was read. |
| FileReader.FailureIsFinal | helpers/fileReader.ts:45-53 | Once a prefix of the pages has failed, the rest of the document cannot change the outcome: there is no retry and no partial text. |
| FileReader.ConcatPagesSuccess | helpers/fileReader.ts:44-50 | When every page loads, the text is the page texts in ascending page order, each being its items joined by one space, appended with no separator between pages. |
| FileReader.ConcatPagesFirstFailure | helpers/fileReader.ts:45-53 | When page j is the first to fail, extraction fails with exactly that page's error. |
| FileReader.PdfEdgeCases | helpers/fileReader.ts:43-48 | A zero-page document gives "". A page with no items adds nothing. A document that fails to open fails with pdf.js's error. |
| FileReader.TwoPageExample | helpers/fileReader.ts:48 | Pages ["a","b"] and ["c"] give "a bc": a space inside a page, nothing between pages. |
| Types.MessageOf | App.tsx:32 | A thrown `Error` is shown by its message, and any other thrown value by the handler's fallback text (also App.tsx:58). |
| ResultsDisplay.GetGradeColor | components/ResultsDisplay.tsx:10-23 | The result is one of the five class strings, and it is the gray default exactly when the grade string is not one of the four grade names. |
| ResultsDisplay.GradeColorsDistinct | components/ResultsDisplay.tsx:10-22 | Each of the four grades of the result schema gets a colour other than gray, and different grades get different colours. |
| ResultsDisplay.StripMarker | components/ResultsDisplay.tsx:33-37 | A line starting with "- " or "* " loses exactly its first two characters. Any other line is returned unchanged. The result is always a suffix of the line. |
| ResultsDisplay.OneMarkerOnly | components/ResultsDisplay.tsx:33-34 | Only one marker is removed: "- - x" becomes "- x". |
| ResultsDisplay.MarkdownToHtml | components/ResultsDisplay.tsx:25-41 | "" renders as "" with no wrapper. Any other text renders as one element that starts with `<ul>` and ends with `</ul>`, and it is exactly `<ul></ul>` when the text is all whitespace (for example, only blank lines). |
| ResultsDisplay.BodyAppend | components/ResultsDisplay.tsx:28-39 | Rendering works line by line, in order: the items of `a + "\n" + b` are the items of `a` followed by those of `b`. |
| ResultsDisplay.BodySingleLine | components/ResultsDisplay.tsx:29-38 | A single line contributes nothing when its trimmed form is empty, and otherwise exactly one `<li>` holding its trimmed, marker-stripped text. With BodyAppend this fixes the item count at one per non-blank line. |
| ResultsDisplay.BodyBlank | components/ResultsDisplay.tsx:29-30 | No item is produced exactly when every line trims to empty, that is when the whole text is whitespace. |
| ResultsDisplay.ListItemHasNoNewline | components/ResultsDisplay.tsx:31-38 | Trimming and marker stripping only remove characters, so an item made from a split piece holds no newline. |
| ResultsDisplay.BodyHasNoNewline | components/ResultsDisplay.tsx:28-39 | The concatenated items contain no newline. |
| ResultsDisplay.SingleLineVerbatim | components/ResultsDisplay.tsx:31-40 | A line without surrounding whitespace and without a marker is wrapped as it is, in one `<li>` inside one `<ul>`. Nothing is escaped, and an unmarked line still becomes a bullet. |
| ResultsDisplay.MarkedLine | components/ResultsDisplay.tsx:32-34 | A "- " or "* " line followed by trailing whitespace (such as the `\r` a CRLF text keeps after splitting at `\n`) renders as its bare text in one `<li>`. |
| ResultsDisplay.WrappedShape | components/ResultsDisplay.tsx:40 | Wrapping a newline-free body in `<ul>`/`</ul>` gives one line that starts with `<`, ends with `>`, and carries no bullet marker. |
| ResultsDisplay.RenderedShape | components/ResultsDisplay.tsx:25-41 | The rendering of a non-empty text is one line, with non-whitespace characters at both ends and no leading marker. |
| ResultsDisplay.RenderTwice | components/ResultsDisplay.tsx:25-41 | The conversion is not idempotent. Rendering its own output wraps that output, unescaped, in a further `<ul><li>…</li></ul>`. |
| Text.JoinSplit | components/ResultsDisplay.tsx:29 | Splitting at a character and joining the pieces with that character gives back the text. |
| Text.SplitJoin | components/ResultsDisplay.tsx:29 | Joining pieces that do not contain the separator, then splitting, gives back the pieces. |
| Text.SplitAppend | components/ResultsDisplay.tsx:29 | Splitting at one occurrence of the separator splits the two sides independently. |
| Text.Split | components/ResultsDisplay.tsx:29 | `split('\n')` always yields at least one piece, and no piece contains the separator. |
| Text.Filter | components/ResultsDisplay.tsx:30 | The filter keeps exactly the elements that pass the test and never adds any. |
| Text.FilterAppend | components/ResultsDisplay.tsx:30 | Filtering keeps the original order: it distributes over concatenation. |
| Text.MapAppend | components/ResultsDisplay.tsx:31 | Mapping distributes over concatenation, so each line's item stays in the line's position. |
| Text.Join | components/ResultsDisplay.tsx:39 | `join` of an empty array is "", a single part is returned as it is, and the joined string is never shorter than its first part (also helpers/fileReader.ts:48). |
| Text.JoinEnds | components/ResultsDisplay.tsx:39 | The joined string starts with the first part and ends with the last. |
| Text.JoinAppend | helpers/fileReader.ts:48 | Joining two non-empty lists is joining each and putting the separator between them. |
| Trim.TrimBySpec | components/ResultsDisplay.tsx:32 | `trim()` returns a slice of the line whose first and last characters are not whitespace, with only whitespace removed on either side. The result is empty exactly when the line is all whitespace. |
| Trim.TrimStartBySpec | components/ResultsDisplay.tsx:32 | Trimming the start keeps a suffix that begins with a non-whitespace character and drops only whitespace. |
| Trim.TrimEndBySpec | components/ResultsDisplay.tsx:32 | Trimming the end keeps a prefix that ends with a non-whitespace character and drops only whitespace. |
| Trim.TrimByUnchanged | components/ResultsDisplay.tsx:32 | A line with no whitespace at either end is left as it is. |
| Trim.TrimByChars | components/ResultsDisplay.tsx:32 | Trimming never introduces a character that was not in the line. |
| Trim.TrimEndByPadding | components/ResultsDisplay.tsx:32 | Whitespace added at the end is removed again by trimming. |
| GradingClient.AnalyzeAssignment | src/services/geminiService.ts:41-98 | A missing or empty API key fails with "API_KEY environment variable not set". The call succeeds exactly when a key is set and the reply parsed, and then returns the parsed value unchecked, `null` included. Every other failure is an `Error` with the fixed "Failed to get a valid analysis…" message. |
| App.StartFileProcessing | App.tsx:25-27 | Selecting a file clears the error and puts the file in its slot. That slot's text, the other slot, the step and the result are unchanged. |
| App.FinishFileProcessing | App.tsx:28-34 | On success the slot's text becomes the extracted text. On failure the error shows the thrown `Error`'s message (or the file-processing fallback) and the slot's file is cleared, while the slot keeps its earlier text. The other slot, the step and the result never change. |
| App.GoToCriteria | App.tsx:84-86 | "Next" changes only the step, to the criteria upload. |
| App.GoBack | App.tsx:110-111 | "Back" changes only the step, so the criteria file and text are kept. |
| App.StartAnalyze | App.tsx:45-51 | With either text empty, only the error changes, to "Both assignment and criteria content are required.". Otherwise the error is cleared and the step becomes Analyzing. Files, texts and the result are untouched either way. |
| App.FinishAnalyze | App.tsx:53-60 | Success stores what the service returned, `null` included, and moves to the results step. Failure returns to the criteria step with the message of the thrown `Error` (or the analysis fallback). Both files and texts are kept in both cases. |
| App.ResetState | App.tsx:63-71 | Reset returns to the assignment step with no files, no texts, no result and no error. |
| Flow.Enabled | App.tsx:73-122 | What each step renders. The first step offers only its upload control and "Next" (App.tsx:84-86). The second offers its upload control, "Analyze" and "Back" (App.tsx:103-111). The loader offers nothing. The results view offers only its reset button, and only for a non-null result (App.tsx:122). |
| Flow.Apply | App.tsx:73-122 | Which operations are in flight. A file selection starts reading its slot, and its settlement ends it. An analysis starts only when both texts are present and ends when it settles. No other event starts or ends either kind. |
| Flow.StartConsistent | App.tsx:17-23 | The initial state satisfies the session invariant. |
| Flow.ApplyConsistent | App.tsx:25-122 | Every event the page offers keeps the invariant. A slot being read holds its file and no text yet. A slot without a file has no text. The loader shows exactly while an analysis is awaited. Past the upload steps both texts are present and nothing is being read. |
| Flow.RunConsistent | App.tsx:25-122 | Any sequence of offered events keeps the invariant. |
| Flow.ReachableConsistent | App.tsx:17-122 | Every session reachable from the first render satisfies the invariant. |
| Flow.NoOverlappingExtraction | App.tsx:78-83 | The upload control is offered only for an empty slot, so one slot is never read twice at once. |
| Flow.AnalyzeOutcome | App.tsx:45-51 | "Analyze" either reports the missing text and stays on the criteria step, or starts the one analysis with no read still pending. |
| Flow.RetryWithoutReupload | App.tsx:57-60 | After a failed analysis, "Analyze" is offered again at once and restarts the analysis on the same two texts, with no upload. |
| Flow.ResetRestoresStart | App.tsx:121-122 | The results view offers reset exactly when it has a result to render, and reset returns the whole session, including the operations in flight, to its start. |
| Flow.NullReplyIsDeadEnd | App.tsx:53-56 | A reply that parses to `null` moves to the results step with no result, where the page offers no event at all (App.tsx:122). |
| Flow.NullReplyReachable | App.tsx:17-122 | That dead end is reached from the first render by two uploads, "Next", "Analyze" and a `null` reply. |
| Flow.EmptyTextIsStuck | App.tsx:45-51 | In a slot that holds a file, has empty text and is not being read, every offered event keeps the same file and the empty text. The session stays on the upload steps, and "Analyze" only reports that both texts are required. |
| Flow.EmptyTextStaysStuck | App.tsx:73-115 | No run of offered events leaves that state or reaches the loader or the results. |
| Flow.EmptyTextReachable | App.tsx:25-34 | That state is reached from the first render by one upload whose extraction gives "". |
| Flow.AnalysisErrorIsServiceMessage | App.tsx:53-59 | With the grading call as modelled, the results step is reached exactly when a key is set and the reply parsed. Otherwise the error shown is one of the service's two messages, never the fallback. |
| Flow.UnsupportedFileRefused | App.tsx:25-34 | A file of another type leaves its slot empty, with its text unchanged and the unsupported-type message shown, whatever its bytes. |

Four behaviours of the source worth knowing when reading the model:
- **Empty files.** `event.target?.result` is falsy only for a null result (helpers/fileReader.ts:21, 41). An empty `ArrayBuffer` is truthy and reaches the parser, so only a null result gives "Failed to read file" (`ReadOutcome.NoResult`).
- **Re-selecting a file.** The upload control renders no input once its slot holds a file (src/components/FileUpload.tsx:48-65), so `Flow.Enabled` offers file selection only for an empty slot. `App.StartFileProcessing` itself replaces the slot's file unconditionally.
- **A `null` reply.** `JSON.parse(jsonText) as AnalysisResult` (src/services/geminiService.ts:94) checks nothing, so a reply of `null` is stored (App.tsx:55) and the step becomes the results step (App.tsx:56). That step then renders nothing (App.tsx:122), so no reset button is shown and the page offers no further event (`Flow.NullReplyIsDeadEnd`, `Flow.NullReplyReachable`).
- **An empty extracted text.** A file whose extraction gives "" (an image-only PDF, or a DOCX with no paragraphs) is held with no text. Its upload control stays hidden because a file is held (src/components/FileUpload.tsx:48), "Analyze" always reports "Both assignment and criteria content are required." (App.tsx:46-47), and the upload steps offer no reset. The slot is stuck for good (`Flow.EmptyTextIsStuck`, `Flow.EmptyTextStaysStuck`, `Flow.EmptyTextReachable`).

## Left out

- Browser I/O: the `FileReader`, the mammoth and pdf.js libraries, the network call to the language model, its prompt and `JSON.parse`. Their outcomes are parameters.
- How the overall grade follows from the criteria met (src/services/geminiService.ts:51-58). The language model decides it; the application never computes it.
- JSX layout, Tailwind classes other than the grade colours, `Loader`, and the drag-and-drop handling in `FileUpload`.
- The kilobyte display (`toFixed(2)`) and the progress-bar width. `completionPercentage` is carried as a `real` and never computed on.
- Concurrency: each settlement is one atomic event. React's batching and the stale closure of `useCallback` are not modelled. The handler reads the current texts.
- HTML escaping: the code does none, and the model does not add any.
- ResultsDisplay.BodySingleLine: the number of list items is stated per line, through this lemma and BodyAppend, not as a count of `<li>` substrings. Without escaping, a line may itself contain `<li>`, so a substring count would not equal the number of non-blank lines.
- ResultsDisplay.MarkedLine: stated for a marked line whose text has no whitespace at either end. Lines with a different shape are covered by BodySingleLine and the trimming lemmas.
- Flow.Apply: its contract speaks about the operations in flight only. The state changes themselves are the contracts of the `App` transitions it applies.
- A reply that parses to something other than `null` or a record of the schema is not modelled. In the source such replies behave as follows:
  - a falsy reply (`0`, `false`, `""`) renders nothing, the same dead end as `null` (App.tsx:122);
  - a missing `suggestionsForImprovement` or `tipsAndTricks` renders as "" (components/ResultsDisplay.tsx:26);
  - a grade string outside the four names gets the gray badge (components/ResultsDisplay.tsx:20-21), the only way `GetGradeColor`'s default is reached;
  - a truthy reply throws while rendering when `criteriaAnalysis` is not an array (components/ResultsDisplay.tsx:74), when one of its entries is `null` (line 78), or when a free-text field is a truthy non-string (line 29);
  - an object-valued `achievedGrade`, `completionPercentage`, `criterion` or `explanation` is refused by React as a child (lines 58, 66, 81 and 82).

=== FILE: app.dfy ===
/** The flow controller of App.tsx: the state record held in React state and
    each handler as a pure transition on it. An asynchronous handler is split
    at its `await` into a start transition and a settle transition. */
module App {
  import opened Wrappers
  import opened Types
  import opened FileReader

  /** `AppStep`. */
  datatype AppStep = UploadAssignment | UploadCriteria | Analyzing | ShowResults

  /** The two upload slots, each a file and its extracted text. */
  datatype Slot = AssignmentSlot | CriteriaSlot

  /** The seven `useState` hooks of `App`. */
  datatype AppState = AppState(
    step: AppStep,
    assignmentFile: Option<File>,
    criteriaFile: Option<File>,
    assignmentContent: string,
    criteriaContent: string,
    analysisResult: Option<AnalysisResult>,
    error: Option<string>)

  const BothRequiredMessage := "Both assignment and criteria content are required."
  const FileErrorFallback := "An unknown error occurred during file processing."
  const AnalysisErrorFallback := "An unknown error occurred during analysis."

  /** The state on first render, and after `resetState`. */
  const Initial := AppState(UploadAssignment, None, None, "", "", None, None)

  function Other(slot: Slot): Slot
  {
    match slot
    case AssignmentSlot => CriteriaSlot
    case CriteriaSlot => AssignmentSlot
  }

  function FileOf(s: AppState, slot: Slot): Option<File>
  {
    match slot
    case AssignmentSlot => s.assignmentFile
    case CriteriaSlot => s.criteriaFile
  }

  function ContentOf(s: AppState, slot: Slot): string
  {
    match slot
    case AssignmentSlot => s.assignmentContent
    case CriteriaSlot => s.criteriaContent
  }

  /** `slot` holds the same file and text in `s` and `r`. */
  predicate SameSlot(s: AppState, r: AppState, slot: Slot)
  {
    FileOf(r, slot) == FileOf(s, slot) && ContentOf(r, slot) == ContentOf(s, slot)
  }

  /** `handleFileProcessing` up to its `await`: the error is cleared and the
      slot takes the new file; its text and everything else stay. */
  function StartFileProcessing(s: AppState, slot: Slot, file: File): (r: AppState)
    ensures r.error == None
    ensures FileOf(r, slot) == Some(file) && ContentOf(r, slot) == ContentOf(s, slot)
    ensures SameSlot(s, r, Other(slot))
    ensures r.step == s.step && r.analysisResult == s.analysisResult
  {
    match slot
    case AssignmentSlot => s.(error := None, assignmentFile := Some(file))
    case CriteriaSlot => s.(error := None, criteriaFile := Some(file))
  }

  /** `handleFileProcessing` after its `await`. On success the slot's text
      is replaced; on failure the error is shown and the slot's file is
      dropped while its earlier text is kept. The other slot, the step and
      the result never change. */
  function FinishFileProcessing(s: AppState, slot: Slot, outcome: Result<string, Thrown>): (r: AppState)
    ensures outcome.Success? ==>
              && ContentOf(r, slot) == outcome.value
              && FileOf(r, slot) == FileOf(s, slot)
              && r.error == s.error
    ensures outcome.Failure? ==>
              && r.error == Some(MessageOf(outcome.error, FileErrorFallback))
              && FileOf(r, slot) == None
              && ContentOf(r, slot) == ContentOf(s, slot)
    ensures SameSlot(s, r, Other(slot))
    ensures r.step == s.step && r.analysisResult == s.analysisResult
  {
    match outcome
    case Success(text) =>
      (match slot
       case AssignmentSlot => s.(assignmentContent := text)
       case CriteriaSlot => s.(criteriaContent := text))
    case Failure(t) =>
      var failed := s.(error := Some(MessageOf(t, FileErrorFallback)));
      (match slot
       case AssignmentSlot => failed.(assignmentFile := None)
       case CriteriaSlot => failed.(criteriaFile := None))
  }

  /** The "Next: Add Criteria" button: only the step changes. */
  function GoToCriteria(s: AppState): (r: AppState)
    ensures r.step == UploadCriteria
    ensures SameSlot(s, r, AssignmentSlot) && SameSlot(s, r, CriteriaSlot)
    ensures r.analysisResult == s.analysisResult && r.error == s.error
  {
    s.(step := UploadCriteria)
  }

  /** The "Back" button: only the step changes, so the criteria file and
      text are kept. */
  function GoBack(s: AppState): (r: AppState)
    ensures r.step == UploadAssignment
    ensures SameSlot(s, r, AssignmentSlot) && SameSlot(s, r, CriteriaSlot)
    ensures r.analysisResult == s.analysisResult && r.error == s.error
  {
    s.(step := UploadAssignment)
  }

  /** Both extracted texts are non-empty (truthy). */
  predicate ContentsPresent(s: AppState)
  {
    s.assignmentContent != "" && s.criteriaContent != ""
  }

  /** `handleAnalyze` up to its `await`. With a text missing only the error
      changes; otherwise the error is cleared and the step becomes
      `Analyzing`. Files, texts and the result are never touched. */
  function StartAnalyze(s: AppState): (r: AppState)
    ensures !ContentsPresent(s) ==> r.error == Some(BothRequiredMessage) && r.step == s.step
    ensures ContentsPresent(s) ==> r.error == None && r.step == Analyzing
    ensures SameSlot(s, r, AssignmentSlot) && SameSlot(s, r, CriteriaSlot)
    ensures r.analysisResult == s.analysisResult
  {
    if !ContentsPresent(s) then s.(error := Some(BothRequiredMessage))
    else s.(error := None, step := Analyzing)
  }

  /** `handleAnalyze` after its `await`. Success stores what the service
      returned, `null` included, and moves to the results step; failure goes
      back to the criteria step with the error shown. Both slots are kept
      either way, so a retry needs no upload. */
  function FinishAnalyze(s: AppState, outcome: Result<ParsedResult, Thrown>): (r: AppState)
    ensures outcome.Success? ==>
              && r.analysisResult == outcome.value
              && r.step == ShowResults
              && r.error == s.error
    ensures outcome.Failure? ==>
              && r.error == Some(MessageOf(outcome.error, AnalysisErrorFallback))
              && r.step == UploadCriteria
              && r.analysisResult == s.analysisResult
    ensures SameSlot(s, r, AssignmentSlot) && SameSlot(s, r, CriteriaSlot)
  {
    match outcome
    case Success(result) => s.(analysisResult := result, step := ShowResults)
    case Failure(t) => s.(error := Some(MessageOf(t, AnalysisErrorFallback)), step := UploadCriteria)
  }

  /** `resetState`: back to the first step with nothing held. */
  function ResetState(s: AppState): (r: AppState)
    ensures r.step == UploadAssignment
    ensures r.assignmentFile == None && r.criteriaFile == None
    ensures r.assignmentContent == "" && r.criteriaContent == ""
    ensures r.analysisResult == None && r.error == None
  {
    Initial
  }
}

=== FILE: file_reader.dfy ===
/** Text extraction from an uploaded file (helpers/fileReader.ts).

    The browser's `FileReader`, mammoth and pdf.js are outside the model:
    what the reader delivered is an input (`ReadOutcome`), and each parsing
    library is a function from the loaded buffer to its outcome. What is
    modelled is the local logic: the dispatch on the MIME type, the handling
    of the reader's result, and the page-by-page concatenation of PDF text. */
module FileReader {
  import opened Wrappers
  import opened Types
  import opened Text

  newtype byte = x: int | 0 <= x < 256

  /** A browser `File`: its name, declared MIME type and size in bytes. */
  datatype File = File(name: string, mimeType: string, size: nat)

  const DocxMime := "application/vnd.openxmlformats-officedocument.wordprocessingml.document"
  const PdfMime := "application/pdf"
  const UnsupportedMessage := "Unsupported file type. Please upload a .docx or .pdf file."
  const ReadFailureMessage := "Failed to read file"

  /** What `readAsArrayBuffer` delivered: `onload` with a buffer, `onload`
      with a null `result`, or `onerror` with its event. A zero-length
      `ArrayBuffer` is still a truthy object, so it is `Loaded([])`. */
  datatype ReadOutcome = Loaded(buffer: seq<byte>) | NoResult | ReadFailed(event: Thrown)

  /** One page as pdf.js hands it over: the `str` of each text item, or the
      rejection of `getPage`/`getTextContent`. */
  datatype PageContent = PageItems(items: seq<string>) | PageFailed(error: Thrown)

  /** `getDocument(...).promise`: the pages 1..numPages in order, or a
      rejection (corrupt or encrypted document). */
  datatype PdfDocument = Opened(pages: seq<PageContent>) | OpenFailed(error: Thrown)

  /** The two formats the extractor accepts. */
  datatype Format = Docx | Pdf

  /** Dispatch on the declared MIME type, by exact string comparison. */
  function FormatOf(mime: string): (r: Option<Format>)
    ensures r == Some(Docx) <==> mime == DocxMime
    ensures r == Some(Pdf) <==> mime == PdfMime
    ensures r == None <==> mime != DocxMime && mime != PdfMime
  {
    if mime == DocxMime then Some(Docx)
    else if mime == PdfMime then Some(Pdf)
    else None
  }

  /** The `onload`/`onerror` wrapper both extractors share: a loaded buffer
      goes to `parse`, a null result rejects with "Failed to read file", and
      a reader error rejects with the reader's event. */
  function OnRead(read: ReadOutcome, parse: seq<byte> -> Result<string, Thrown>): (r: Result<string, Thrown>)
    ensures read.Loaded? ==> r == parse(read.buffer)
    ensures read.NoResult? ==> r == Failure(ErrorValue(ReadFailureMessage))
    ensures read.ReadFailed? ==> r == Failure(read.event)
  {
    match read
    case Loaded(buffer) => parse(buffer)
    case NoResult => Failure(ErrorValue(ReadFailureMessage))
    case ReadFailed(event) => Failure(event)
  }

  /** `extractTextFromDocx`: mammoth's `extractRawText(...).value`, passed
      through unchanged, or its rejection. */
  function ExtractTextFromDocx(read: ReadOutcome, mammoth: seq<byte> -> Result<string, Thrown>): (r: Result<string, Thrown>)
    ensures r.Success? ==> read.Loaded? && mammoth(read.buffer) == r
    ensures read.Loaded? ==> r == mammoth(read.buffer)
    ensures read.NoResult? ==> r == Failure(ErrorValue(ReadFailureMessage))
    ensures read.ReadFailed? ==> r == Failure(read.event)
  {
    OnRead(read, mammoth)
  }

  /** The text of one page: its items joined by a single space. */
  function PageText(items: seq<string>): string
  {
    Join(items, " ")
  }

  /** The functional reading of the page loop: page texts appended in page
      order with no separator, stopping at the first page that fails. It
      succeeds exactly when every page was read. */
  function ConcatPages(pages: seq<PageContent>): (r: Result<string, Thrown>)
    ensures r.Success? <==> AllPagesRead(pages)
  {
    if |pages| == 0 then Success("")
    else
      assert forall i :: 0 <= i < |pages| - 1 ==> pages[..|pages| - 1][i] == pages[i];
      match ConcatPages(pages[..|pages| - 1])
      case Failure(e) => Failure(e)
      case Success(text) =>
        match pages[|pages| - 1]
        case PageFailed(e) => Failure(e)
        case PageItems(items) => Success(text + PageText(items))
  }

  /** The concatenation step applied to a loaded buffer: an open failure
      propagates as it is. */
  function PdfTextOf(doc: PdfDocument): Result<string, Thrown>
  {
    match doc
    case OpenFailed(e) => Failure(e)
    case Opened(pages) => ConcatPages(pages)
  }

  /** `extractTextFromPdf`. */
  function ExtractTextFromPdf(read: ReadOutcome, pdfjs: seq<byte> -> PdfDocument): (r: Result<string, Thrown>)
    ensures r.Success? ==> read.Loaded? && pdfjs(read.buffer).Opened? && AllPagesRead(pdfjs(read.buffer).pages)
    ensures read.Loaded? ==> r == PdfTextOf(pdfjs(read.buffer))
    ensures read.NoResult? ==> r == Failure(ErrorValue(ReadFailureMessage))
    ensures read.ReadFailed? ==> r == Failure(read.event)
  {
    OnRead(read, buffer => PdfTextOf(pdfjs(buffer)))
  }

  /** `extractTextFromFile`: an unsupported MIME type is rejected before the
      file is read, whatever the reader and the libraries would have done;
      the other two types go to their own extractor. */
  function ExtractTextFromFile(
    mime: string,
    read: ReadOutcome,
    mammoth: seq<byte> -> Result<string, Thrown>,
    pdfjs: seq<byte> -> PdfDocument): (r: Result<string, Thrown>)
    ensures FormatOf(mime) == None ==> r == Failure(ErrorValue(UnsupportedMessage))
    ensures r.Success? ==> FormatOf(mime).Some? && read.Loaded?
    ensures mime == DocxMime && read.Loaded? ==> r == mammoth(read.buffer)
    ensures mime == PdfMime && read.Loaded? ==> r == PdfTextOf(pdfjs(read.buffer))
    ensures FormatOf(mime).Some? && read.NoResult? ==> r == Failure(ErrorValue(ReadFailureMessage))
    ensures FormatOf(mime).Some? && read.ReadFailed? ==> r == Failure(read.event)
  {
    match FormatOf(mime)
    case Some(Docx) => ExtractTextFromDocx(read, mammoth)
    case Some(Pdf) => ExtractTextFromPdf(read, pdfjs)
    case None => Failure(ErrorValue(UnsupportedMessage))
  }

  /** Once a prefix of the pages has failed, later pages change nothing. */
  lemma {:induction false} FailureIsFinal(pages: seq<PageContent>, k: nat)
    requires k <= |pages|
    requires ConcatPages(pages[..k]).Failure?
    ensures ConcatPages(pages) == ConcatPages(pages[..k])
    decreases |pages| - k
  {
    if k < |pages| {
      assert pages[..k + 1][..k] == pages[..k];
      FailureIsFinal(pages, k + 1);
    } else {
      assert pages[..k] == pages;
    }
  }

  /** The page loop of `extractTextFromPdf`, written as in the source with a
      1-based page counter; it computes the fold `ConcatPages`. */
  method ConcatPagesLoop(pages: seq<PageContent>) returns (r: Result<string, Thrown>)
    ensures r == ConcatPages(pages)
  {
    var textContent := "";
    var i := 1;
    while i <= |pages|
      invariant 1 <= i <= |pages| + 1
      invariant ConcatPages(pages[..i - 1]) == Success(textContent)
    {
      assert pages[..i][..i - 1] == pages[..i - 1];
      match pages[i - 1] {
        case PageFailed(e) =>
          FailureIsFinal(pages, i);
          return Failure(e);
        case PageItems(items) =>
          textContent := textContent + PageText(items);
      }
      i := i + 1;
    }
    assert pages[..|pages|] == pages;
    return Success(textContent);
  }

  /** Every page's text, failed pages contributing nothing. */
  function PageTexts(pages: seq<PageContent>): seq<string>
  {
    seq(|pages|, i requires 0 <= i < |pages| =>
      match pages[i]
      case PageItems(items) => PageText(items)
      case PageFailed(_) => "")
  }

  predicate AllPagesRead(pages: seq<PageContent>)
  {
    forall i :: 0 <= i < |pages| ==> pages[i].PageItems?
  }

  /** When every page is read, the result is all page texts appended in
      ascending page order with nothing between pages. */
  lemma {:induction false} ConcatPagesSuccess(pages: seq<PageContent>)
    requires AllPagesRead(pages)
    ensures ConcatPages(pages) == Success(Join(PageTexts(pages), ""))
  {
    if |pages| > 0 {
      var init := pages[..|pages| - 1];
      assert AllPagesRead(init);
      ConcatPagesSuccess(init);
      var last := [PageText(pages[|pages| - 1].items)];
      assert ConcatPages(pages) == Success(Join(PageTexts(init), "") + last[0]);
      assert PageTexts(pages) == PageTexts(init) + last;
      JoinEmptySepAppend(PageTexts(init), last);
    }
  }

  /** When page `j` is the first to fail, the whole extraction fails with
      that page's error and no partial text is returned. */
  lemma {:induction false} ConcatPagesFirstFailure(pages: seq<PageContent>, j: nat)
    requires j < |pages| && pages[j].PageFailed?
    requires forall i :: 0 <= i < j ==> pages[i].PageItems?
    ensures ConcatPages(pages) == Failure(pages[j].error)
  {
    var prefix := pages[..j + 1];
    assert prefix[..j] == pages[..j];
    assert AllPagesRead(pages[..j]);
    ConcatPagesSuccess(pages[..j]);
    assert ConcatPages(prefix) == Failure(pages[j].error);
    FailureIsFinal(pages, j + 1);
  }

  /** A document without pages gives the empty text, a page without items
      contributes nothing, and a document that fails to open fails with
      pdf.js's own error. */
  lemma PdfEdgeCases(e: Thrown, pages: seq<PageContent>)
    ensures PdfTextOf(Opened([])) == Success("")
    ensures PdfTextOf(OpenFailed(e)) == Failure(e)
    ensures ConcatPages(pages + [PageItems([])]) == ConcatPages(pages)
  {
    var all := pages + [PageItems([])];
    assert all[..|all| - 1] == pages;
    match ConcatPages(pages)
    case Success(text) =>
      assert text + PageText([]) == text;
    case Failure(_) =>
  }

  /** Two pages with items ["a", "b"] and ["c"] give "a bc": the items of
      a page are separated by one space, the pages by nothing. */
  lemma TwoPageExample()
    ensures ConcatPages([PageItems(["a", "b"]), PageItems(["c"])]) == Success("a bc")
  {
    var first := PageItems(["a", "b"]);
    var pages := [first, PageItems(["c"])];
    assert PageText(["a", "b"]) == "a b";
    assert PageText(["c"]) == "c";
    assert [first][..0] == [];
    assert ConcatPages([]) == Success("");
    assert "" + "a b" == "a b";
    assert ConcatPages([first]) == Success("a b");
    assert "a b" + "c" == "a bc";
    assert pages[..1] == [first];
  }
}

=== FILE: flow.dfy ===
/** The application as a whole: the `App` state together with the
    asynchronous operations it has started and not yet seen settle, driven
    by the events the rendered page offers. A handler that awaits runs as
    two events: the click or file selection that starts it, and the
    settlement that resumes it. */
module Flow {
  import opened Wrappers
  import opened Types
  import opened FileReader
  import opened App
  import GradingClient

  datatype Event =
    | FileSelected(slot: Slot, file: File)
    | ExtractionSettled(slot: Slot, text: Result<string, Thrown>)
    | NextClicked
    | BackClicked
    | AnalyzeClicked
    | AnalysisSettled(analysis: Result<ParsedResult, Thrown>)
    | ResetClicked

  /** `extracting`: slots whose `extractTextFromFile` is awaited;
      `analyzing`: whether `analyzeAssignment` is awaited. */
  datatype Session = Session(app: AppState, extracting: set<Slot>, analyzing: bool)

  const Start := Session(Initial, {}, false)

  /** The step on which a slot's upload control is rendered. */
  function UploadStep(slot: Slot): AppStep
  {
    match slot
    case AssignmentSlot => UploadAssignment
    case CriteriaSlot => UploadCriteria
  }

  /** An event the user causes, as opposed to a settlement. */
  predicate UserAction(e: Event)
  {
    !e.ExtractionSettled? && !e.AnalysisSettled?
  }

  /** What the page offers in session `w`. The upload control of a slot is
      rendered on its step and only while the slot holds no file; "Next" is
      disabled without an assignment file and "Analyze" without a criteria
      file; "Back" is always offered on the criteria step; the reset button
      belongs to the results view, which is rendered only for a non-null
      result. A settlement is possible only for an operation in flight.
      Step by step: the first step offers its upload control and "Next", the
      second its upload control, "Analyze" and "Back", the loader nothing,
      and the results view only its reset button. */
  predicate Enabled(w: Session, e: Event)
    ensures Enabled(w, e) && UserAction(e) && w.app.step == UploadAssignment ==>
              (e.FileSelected? && e.slot == AssignmentSlot) || e.NextClicked?
    ensures Enabled(w, e) && UserAction(e) && w.app.step == UploadCriteria ==>
              (e.FileSelected? && e.slot == CriteriaSlot) || e.AnalyzeClicked? || e.BackClicked?
    ensures UserAction(e) && w.app.step == Analyzing ==> !Enabled(w, e)
    ensures Enabled(w, e) && UserAction(e) && w.app.step == ShowResults ==>
              e.ResetClicked? && w.app.analysisResult.Some?
  {
    match e
    case FileSelected(slot, _) => w.app.step == UploadStep(slot) && FileOf(w.app, slot).None?
    case ExtractionSettled(slot, _) => slot in w.extracting
    case NextClicked => w.app.step == UploadAssignment && w.app.assignmentFile.Some?
    case BackClicked => w.app.step == UploadCriteria
    case AnalyzeClicked => w.app.step == UploadCriteria && w.app.criteriaFile.Some?
    case AnalysisSettled(_) => w.analyzing
    case ResetClicked => w.app.step == ShowResults && w.app.analysisResult.Some?
  }

  /** The effect of an enabled event. An analysis is started only when both
      texts are present. */
  function Apply(w: Session, e: Event): (r: Session)
    requires Enabled(w, e)
    ensures e.FileSelected? ==> r.extracting == w.extracting + {e.slot}
    ensures e.ExtractionSettled? ==> r.extracting == w.extracting - {e.slot}
    ensures !e.FileSelected? && !e.ExtractionSettled? ==> r.extracting == w.extracting
    ensures e.AnalyzeClicked? ==> (r.analyzing <==> w.analyzing || ContentsPresent(w.app))
    ensures e.AnalysisSettled? ==> !r.analyzing
    ensures !e.AnalyzeClicked? && !e.AnalysisSettled? ==> r.analyzing == w.analyzing
  {
    match e
    case FileSelected(slot, file) =>
      Session(StartFileProcessing(w.app, slot, file), w.extracting + {slot}, w.analyzing)
    case ExtractionSettled(slot, outcome) =>
      Session(FinishFileProcessing(w.app, slot, outcome), w.extracting - {slot}, w.analyzing)
    case NextClicked => w.(app := GoToCriteria(w.app))
    case BackClicked => w.(app := GoBack(w.app))
    case AnalyzeClicked =>
      if ContentsPresent(w.app) then Session(StartAnalyze(w.app), w.extracting, true)
      else w.(app := StartAnalyze(w.app))
    case AnalysisSettled(outcome) => Session(FinishAnalyze(w.app, outcome), w.extracting, false)
    case ResetClicked => Session(ResetState(w.app), w.extracting, w.analyzing)
  }

  /** The invariant of every reachable session. */
  predicate Consistent(w: Session)
  {
    // a slot being read holds its file and no text yet
    && (forall slot :: slot in w.extracting ==> FileOf(w.app, slot).Some? && ContentOf(w.app, slot) == "")
    // a slot without a file has no text
    && (forall slot :: FileOf(w.app, slot).None? ==> ContentOf(w.app, slot) == "")
    // the loader is shown exactly while the analysis is awaited
    && (w.analyzing <==> w.app.step == Analyzing)
    // past the upload steps both texts are present and nothing is being read
    && (w.app.step == Analyzing || w.app.step == ShowResults ==>
          w.extracting == {} && ContentsPresent(w.app))
  }

  lemma StartConsistent()
    ensures Consistent(Start)
  {
  }

  /** Every enabled event keeps the invariant. */
  lemma ApplyConsistent(w: Session, e: Event)
    requires Consistent(w) && Enabled(w, e)
    ensures Consistent(Apply(w, e))
  {
    var r := Apply(w, e);
    match e
    case FileSelected(slot, file) =>
      assert SameSlot(w.app, r.app, Other(slot));
      forall s | s in r.extracting
        ensures FileOf(r.app, s).Some? && ContentOf(r.app, s) == ""
      {
        if s != slot { assert s == Other(slot); }
      }
      forall s | FileOf(r.app, s).None?
        ensures ContentOf(r.app, s) == ""
      {
        assert s == Other(slot);
      }
    case ExtractionSettled(slot, outcome) =>
      assert SameSlot(w.app, r.app, Other(slot));
      forall s | s in r.extracting
        ensures FileOf(r.app, s).Some? && ContentOf(r.app, s) == ""
      {
        assert s == Other(slot);
      }
      forall s | FileOf(r.app, s).None?
        ensures ContentOf(r.app, s) == ""
      {
        if s != slot { assert s == Other(slot); }
      }
    case NextClicked =>
    case BackClicked =>
    case AnalyzeClicked =>
    case AnalysisSettled(outcome) =>
    case ResetClicked =>
  }

  /** Events taken one after another, each enabled where it is taken. */
  predicate ValidRun(w: Session, events: seq<Event>)
    decreases |events|
  {
    |events| == 0 || (Enabled(w, events[0]) && ValidRun(Apply(w, events[0]), events[1..]))
  }

  function Run(w: Session, events: seq<Event>): Session
    requires ValidRun(w, events)
    decreases |events|
  {
    if |events| == 0 then w else Run(Apply(w, events[0]), events[1..])
  }

  /** Every session reachable from the start is consistent. */
  lemma {:induction false} RunConsistent(w: Session, events: seq<Event>)
    requires Consistent(w) && ValidRun(w, events)
    ensures Consistent(Run(w, events))
    decreases |events|
  {
    if |events| > 0 {
      ApplyConsistent(w, events[0]);
      RunConsistent(Apply(w, events[0]), events[1..]);
    }
  }

  lemma ReachableConsistent(events: seq<Event>)
    requires ValidRun(Start, events)
    ensures Consistent(Run(Start, events))
  {
    StartConsistent();
    RunConsistent(Start, events);
  }

  /** A slot is never read twice at once: selecting a file is offered only
      for a slot that is not being read. */
  lemma NoOverlappingExtraction(w: Session, slot: Slot, file: File)
    requires Consistent(w) && Enabled(w, FileSelected(slot, file))
    ensures slot !in w.extracting
  {
  }

  /** "Analyze" either reports the missing text and stays on the criteria
      step, or starts the one analysis with both texts final. */
  lemma AnalyzeOutcome(w: Session)
    requires Consistent(w) && Enabled(w, AnalyzeClicked)
    ensures var r := Apply(w, AnalyzeClicked);
            if ContentsPresent(w.app) then
              r.app.step == Analyzing && r.analyzing && r.app.error == None && r.extracting == {}
            else
              r.app.step == UploadCriteria && !r.analyzing && r.app.error == Some(BothRequiredMessage)
  {
    if ContentsPresent(w.app) {
      assert ContentOf(w.app, AssignmentSlot) != "" && ContentOf(w.app, CriteriaSlot) != "";
      forall s: Slot ensures s !in w.extracting {
        assert ContentOf(w.app, s) != "";
      }
    }
  }

  /** After a failed analysis the same analysis can be started again at
      once: both files and texts are kept. */
  lemma RetryWithoutReupload(w: Session, t: Thrown)
    requires Consistent(w) && Enabled(w, AnalysisSettled(Failure(t)))
    ensures var failed := Apply(w, AnalysisSettled(Failure(t)));
            && failed.app.step == UploadCriteria
            && failed.app.error == Some(MessageOf(t, AnalysisErrorFallback))
            && Enabled(failed, AnalyzeClicked)
            && Apply(failed, AnalyzeClicked).app.step == Analyzing
            && Apply(failed, AnalyzeClicked).app.assignmentContent == w.app.assignmentContent
            && Apply(failed, AnalyzeClicked).app.criteriaContent == w.app.criteriaContent
  {
    var failed := Apply(w, AnalysisSettled(Failure(t)));
    assert SameSlot(w.app, failed.app, CriteriaSlot);
    assert FileOf(w.app, CriteriaSlot).Some?;
  }

  /** The results view offers "Analyze Another" exactly when it has a
      result to render, and that button returns the whole session to its
      starting point. */
  lemma ResetRestoresStart(w: Session)
    requires Consistent(w) && w.app.step == ShowResults
    ensures Enabled(w, ResetClicked) <==> w.app.analysisResult.Some?
    ensures w.app.analysisResult.Some? ==> Apply(w, ResetClicked) == Start
  {
  }

  /** A reply that parses to `null` is stored and shown: the step becomes
      the results step, which renders nothing, so the page offers no event
      at all from then on. */
  lemma NullReplyIsDeadEnd(w: Session)
    requires Consistent(w) && w.analyzing
    ensures var r := Apply(w, AnalysisSettled(Success(None)));
            && r.app.step == ShowResults
            && r.app.analysisResult == None
            && forall e :: !Enabled(r, e)
  {
    var r := Apply(w, AnalysisSettled(Success(None)));
    assert r.extracting == {} && !r.analyzing;
  }

  /** Taking one enabled event and then a run is a run. */
  lemma RunCons(w: Session, e: Event, rest: seq<Event>)
    requires Enabled(w, e) && ValidRun(Apply(w, e), rest)
    ensures ValidRun(w, [e] + rest) && Run(w, [e] + rest) == Run(Apply(w, e), rest)
  {
    assert ([e] + rest)[0] == e && ([e] + rest)[1..] == rest;
  }

  /** The dead end is reachable from the first render: upload two files,
      go on, analyze, and receive a reply that parses to `null`. */
  lemma NullReplyReachable(f: File, a: string, c: string)
    requires a != "" && c != ""
    ensures var events := [FileSelected(AssignmentSlot, f), ExtractionSettled(AssignmentSlot, Success(a)),
                           NextClicked, FileSelected(CriteriaSlot, f), ExtractionSettled(CriteriaSlot, Success(c)),
                           AnalyzeClicked, AnalysisSettled(Success(None))];
            && ValidRun(Start, events)
            && Run(Start, events).app.step == ShowResults
            && forall e :: !Enabled(Run(Start, events), e)
  {
    var e0, e1, e2 := FileSelected(AssignmentSlot, f), ExtractionSettled(AssignmentSlot, Success(a)), NextClicked;
    var e3, e4 := FileSelected(CriteriaSlot, f), ExtractionSettled(CriteriaSlot, Success(c));
    var e5, e6 := AnalyzeClicked, AnalysisSettled(Success(None));
    var w1 := Apply(Start, e0);
    var w2 := Apply(w1, e1);
    var w3 := Apply(w2, e2);
    var w4 := Apply(w3, e3);
    var w5 := Apply(w4, e4);
    assert w5.app.step == UploadCriteria && ContentsPresent(w5.app);
    var w6 := Apply(w5, e5);
    var w7 := Apply(w6, e6);
    RunCons(w6, e6, []);
    RunCons(w5, e5, [e6]);
    RunCons(w4, e4, [e5, e6]);
    RunCons(w3, e3, [e4, e5, e6]);
    RunCons(w2, e2, [e3, e4, e5, e6]);
    RunCons(w1, e1, [e2, e3, e4, e5, e6]);
    RunCons(Start, e0, [e1, e2, e3, e4, e5, e6]);
    StartConsistent();
    ApplyConsistent(Start, e0);
    ApplyConsistent(w1, e1);
    ApplyConsistent(w2, e2);
    ApplyConsistent(w3, e3);
    ApplyConsistent(w4, e4);
    ApplyConsistent(w5, e5);
    NullReplyIsDeadEnd(w6);
  }

  /** A slot that holds a file whose extracted text is empty, and is not
      being read, stays that way: its upload control is not rendered while
      it holds a file, "Analyze" only reports the missing text, and neither
      the loader nor the reset button is ever reached. Such a text comes
      from an image-only PDF or an empty DOCX. */
  predicate EmptyTextHeld(w: Session, slot: Slot)
  {
    FileOf(w.app, slot).Some? && ContentOf(w.app, slot) == "" && slot !in w.extracting
  }

  lemma EmptyTextIsStuck(w: Session, slot: Slot, e: Event)
    requires Consistent(w) && EmptyTextHeld(w, slot) && Enabled(w, e)
    ensures var r := Apply(w, e);
            && Consistent(r)
            && EmptyTextHeld(r, slot)
            && FileOf(r.app, slot) == FileOf(w.app, slot)
            && (r.app.step == UploadAssignment || r.app.step == UploadCriteria)
            && (e.AnalyzeClicked? ==> r.app.error == Some(BothRequiredMessage))
            && !e.ResetClicked? && !e.AnalysisSettled?
  {
    ApplyConsistent(w, e);
  }

  /** No run of offered events leaves that state. */
  lemma {:induction false} EmptyTextStaysStuck(w: Session, slot: Slot, events: seq<Event>)
    requires Consistent(w) && EmptyTextHeld(w, slot) && ValidRun(w, events)
    ensures var r := Run(w, events);
            && EmptyTextHeld(r, slot)
            && FileOf(r.app, slot) == FileOf(w.app, slot)
            && (r.app.step == UploadAssignment || r.app.step == UploadCriteria)
    decreases |events|
  {
    if |events| > 0 {
      EmptyTextIsStuck(w, slot, events[0]);
      EmptyTextStaysStuck(Apply(w, events[0]), slot, events[1..]);
    }
  }

  /** The state is reached from the first render by one upload whose text
      is empty. */
  lemma EmptyTextReachable(f: File)
    ensures var events := [FileSelected(AssignmentSlot, f), ExtractionSettled(AssignmentSlot, Success(""))];
            && ValidRun(Start, events)
            && EmptyTextHeld(Run(Start, events), AssignmentSlot)
            && Consistent(Run(Start, events))
  {
    var e0, e1 := FileSelected(AssignmentSlot, f), ExtractionSettled(AssignmentSlot, Success(""));
    var w1 := Apply(Start, e0);
    RunCons(w1, e1, []);
    RunCons(Start, e0, [e1]);
    StartConsistent();
    ApplyConsistent(Start, e0);
    ApplyConsistent(w1, e1);
  }

  /** An error shown after a settled analysis is one of the two messages
      of the grading call: the fallback text never appears, since every
      failure it raises is an `Error`. */
  lemma AnalysisErrorIsServiceMessage(w: Session, apiKey: Option<string>, reply: GradingClient.ServiceReply)
    requires Consistent(w) && w.analyzing
    ensures var r := Apply(w, AnalysisSettled(GradingClient.AnalyzeAssignment(apiKey, reply)));
            && (r.app.step == ShowResults <==> GradingClient.KeyConfigured(apiKey) && reply.Parsed?)
            && (r.app.step != ShowResults ==>
                  r.app.step == UploadCriteria
                  && r.app.error.Some?
                  && r.app.error.value in {GradingClient.MissingKeyMessage, GradingClient.AnalysisFailedMessage})
  {
  }

  /** A file of an unsupported type is refused whatever its bytes: after
      the extraction settles the slot is empty again, its text unchanged,
      and the message names the accepted types. */
  lemma UnsupportedFileRefused(
    w: Session, slot: Slot, file: File, read: ReadOutcome,
    mammoth: seq<byte> -> Result<string, Thrown>, pdfjs: seq<byte> -> PdfDocument)
    requires Consistent(w) && Enabled(w, FileSelected(slot, file))
    requires FormatOf(file.mimeType) == None
    ensures var started := Apply(w, FileSelected(slot, file));
            var outcome := ExtractTextFromFile(file.mimeType, read, mammoth, pdfjs);
            && Enabled(started, ExtractionSettled(slot, outcome))
            && var r := Apply(started, ExtractionSettled(slot, outcome));
               && FileOf(r.app, slot) == None
               && ContentOf(r.app, slot) == ""
               && r.app.error == Some(UnsupportedMessage)
               && slot !in r.extracting
  {
  }
}

=== FILE: grading_client.dfy ===
/** The grading call (src/services/geminiService.ts) as seen from the
    application. The prompt, the network round trip and `JSON.parse` are not
    modelled: what the service did is an input (`ServiceReply`), and only
    the local error handling is kept. */
module GradingClient {
  import opened Wrappers
  import opened Types

  const MissingKeyMessage := "API_KEY environment variable not set"
  const AnalysisFailedMessage := "Failed to get a valid analysis from the AI. The model may have returned an unexpected format. Please try again."

  /** What the service round trip produced: a reply that `JSON.parse`
      accepted (unchecked against the schema, so possibly `null`), a failed
      call, or a reply that did not parse. */
  datatype ServiceReply = Parsed(result: ParsedResult) | CallFailed(cause: Thrown) | Unparseable

  /** `process.env.API_KEY` is truthy: set and not empty. */
  predicate KeyConfigured(apiKey: Option<string>)
  {
    apiKey.Some? && |apiKey.value| > 0
  }

  /** `analyzeAssignment`. A missing or empty API key fails before any call;
      every other failure is replaced by one fixed message. Both failures are
      `Error` instances. */
  function AnalyzeAssignment(apiKey: Option<string>, reply: ServiceReply): (r: Result<ParsedResult, Thrown>)
    ensures !KeyConfigured(apiKey) ==> r == Failure(ErrorValue(MissingKeyMessage))
    ensures r.Success? <==> KeyConfigured(apiKey) && reply.Parsed?
    ensures r.Success? ==> r.value == reply.result
    ensures r.Failure? ==> r.error.ErrorValue?
                           && r.error.message in {MissingKeyMessage, AnalysisFailedMessage}
  {
    if !KeyConfigured(apiKey) then Failure(ErrorValue(MissingKeyMessage))
    else
      match reply
      case Parsed(result) => Success(result)
      case CallFailed(_) => Failure(ErrorValue(AnalysisFailedMessage))
      case Unparseable => Failure(ErrorValue(AnalysisFailedMessage))
  }
}

=== FILE: results_display.dfy ===
/** The two pure helpers of the report view (components/ResultsDisplay.tsx):
    the colour classes of the grade badge and the conversion of the service's
    free-text fields into an HTML bullet list. */
module ResultsDisplay {
  import opened Types
  import opened Text
  import opened Trim

  const IndigoClasses := "bg-indigo-100 text-indigo-800 dark:bg-indigo-900 dark:text-indigo-300"
  const SkyClasses := "bg-sky-100 text-sky-800 dark:bg-sky-900 dark:text-sky-300"
  const GreenClasses := "bg-green-100 text-green-800 dark:bg-green-900 dark:text-green-300"
  const RedClasses := "bg-red-100 text-red-800 dark:bg-red-900 dark:text-red-300"
  const GrayClasses := "bg-gray-100 text-gray-800 dark:bg-gray-700 dark:text-gray-300"

  /** The grade strings the badge has a colour for. */
  const KnownGrades: set<string> := {"Distinction", "Merit", "Pass", "Not Achieved"}

  /** `getGradeColor`: one class list per grade string, gray for any other
      string (the service's JSON is cast, not validated). */
  function GetGradeColor(grade: string): (r: string)
    ensures r == GrayClasses <==> grade !in KnownGrades
    ensures r in {IndigoClasses, SkyClasses, GreenClasses, RedClasses, GrayClasses}
  {
    match grade
    case "Distinction" => IndigoClasses
    case "Merit" => SkyClasses
    case "Pass" => GreenClasses
    case "Not Achieved" => RedClasses
    case _ => GrayClasses
  }

  /** Every grade of the schema gets its own colour, and none gets gray. */
  lemma GradeColorsDistinct(a: Grade, b: Grade)
    ensures GetGradeColor(GradeName(a)) != GrayClasses
    ensures a != b ==> GetGradeColor(GradeName(a)) != GetGradeColor(GradeName(b))
  {
  }

  /** A (trimmed) line that starts with a "- " or "* " bullet marker. */
  predicate HasMarker(t: string)
  {
    |t| >= 2 && (t[..2] == "- " || t[..2] == "* ")
  }

  /** Removes one leading bullet marker, if there is one. */
  function StripMarker(t: string): (r: string)
    ensures |r| <= |t| && r == t[|t| - |r|..]
    ensures HasMarker(t) ==> |r| == |t| - 2
    ensures !HasMarker(t) ==> r == t
  {
    if HasMarker(t) then t[2..] else t
  }

  /** `line.trim().length > 0`: the lines the list keeps. */
  predicate HasText(line: string)
  {
    Trim.Trim(line) != ""
  }

  /** The `<li>` element a line becomes: its trimmed text without one bullet
      marker, inserted without escaping. */
  function ListItem(line: string): string
  {
    "<li>" + StripMarker(Trim.Trim(line)) + "</li>"
  }

  /** The list items of a text, concatenated: the part between `<ul>` and
      `</ul>`. */
  function Body(markdown: string): string
  {
    Join(Map(ListItem, Filter(HasText, Split(markdown, '\n'))), "")
  }

  /** `markdownToHtml`. The empty string renders as the empty string; any
      other text renders as one `<ul>` element, which is empty exactly when
      the text is all whitespace. */
  function MarkdownToHtml(markdown: string): (r: string)
    ensures markdown == "" ==> r == ""
    ensures markdown != "" ==> |r| >= 9 && r[..4] == "<ul>" && r[|r| - 5..] == "</ul>"
    ensures markdown != "" ==> (r == "<ul></ul>" <==> AllIn(markdown, IsWhitespace))
  {
    if markdown == "" then ""
    else
      BodyBlank(markdown);
      "<ul>" + Body(markdown) + "</ul>"
  }

  /** Rendering is line by line: the body of two texts joined by a newline
      is the body of the first followed by the body of the second. */
  lemma BodyAppend(a: string, b: string)
    ensures Body(a + "\n" + b) == Body(a) + Body(b)
  {
    var la := Split(a, '\n');
    var lb := Split(b, '\n');
    SplitAppend(a, b, '\n');
    FilterAppend(HasText, la, lb);
    MapAppend(ListItem, Filter(HasText, la), Filter(HasText, lb));
    JoinEmptySepAppend(Map(ListItem, Filter(HasText, la)), Map(ListItem, Filter(HasText, lb)));
  }

  /** A single line contributes nothing when blank and exactly its own list
      item otherwise. */
  lemma BodySingleLine(line: string)
    requires '\n' !in line
    ensures Body(line) == if HasText(line) then ListItem(line) else ""
  {
    assert Split(line, '\n') == [line];
    if !HasText(line) {
      assert Filter(HasText, [line]) == [];
    } else {
      assert Filter(HasText, [line]) == [line];
      assert Map(ListItem, [line]) == [ListItem(line)];
    }
  }

  /** A text joined from lines is all whitespace exactly when every line is
      (the newline itself being whitespace). */
  lemma {:induction false} AllInJoinLines(lines: seq<string>)
    requires |lines| >= 1
    ensures AllIn(Join(lines, "\n"), IsWhitespace) <==> forall k :: 0 <= k < |lines| ==> AllIn(lines[k], IsWhitespace)
  {
    if |lines| > 1 {
      AllInJoinLines(lines[1..]);
      var rest := Join(lines[1..], "\n");
      AllInConcat(lines[0], "\n", IsWhitespace);
      AllInConcat(lines[0] + "\n", rest, IsWhitespace);
      assert IsWhitespace('\n');
      assert forall k :: 1 <= k < |lines| ==> lines[k] == lines[1..][k - 1];
    }
  }

  /** No list item is empty, so the body is empty exactly when no line is
      kept, that is when the whole text is whitespace. */
  lemma BodyBlank(markdown: string)
    ensures Body(markdown) == "" <==> AllIn(markdown, IsWhitespace)
  {
    var lines := Split(markdown, '\n');
    var kept := Filter(HasText, lines);
    JoinSplit(markdown, '\n');
    AllInJoinLines(lines);
    if kept == [] {
      forall k | 0 <= k < |lines|
        ensures AllIn(lines[k], IsWhitespace)
      {
        assert lines[k] in lines;
        TrimBySpec(lines[k], IsWhitespace);
      }
    } else {
      assert kept[0] in kept;
      assert Map(ListItem, kept)[0] == ListItem(kept[0]);
      var k :| 0 <= k < |lines| && lines[k] == kept[0];
      TrimBySpec(lines[k], IsWhitespace);
      assert !AllIn(lines[k], IsWhitespace);
    }
  }

  /** A line free of newlines gives a list item free of newlines: trimming
      and marker stripping only remove characters. */
  lemma ListItemHasNoNewline(line: string)
    requires '\n' !in line
    ensures '\n' !in ListItem(line)
  {
    TrimByChars(line, IsWhitespace, '\n');
    var t := Trim.Trim(line);
    var u := StripMarker(t);
    forall k | 0 <= k < |u|
      ensures u[k] != '\n'
    {
      assert u[k] == t[|t| - |u| + k];
    }
  }

  /** The rendered body is a single line: split pieces hold no newline, and
      neither do the list items made from them. */
  lemma BodyHasNoNewline(markdown: string)
    ensures '\n' !in Body(markdown)
  {
    var lines := Split(markdown, '\n');
    var kept := Filter(HasText, lines);
    var items := Map(ListItem, kept);
    forall k | 0 <= k < |items|
      ensures '\n' !in items[k]
    {
      assert kept[k] in lines;
      var j :| 0 <= j < |lines| && lines[j] == kept[k];
      ListItemHasNoNewline(kept[k]);
    }
    JoinAvoids(items, "", '\n');
  }

  /** A single line with no surrounding whitespace and no bullet marker is
      rendered verbatim inside one list item: nothing is escaped. */
  lemma SingleLineVerbatim(line: string)
    requires '\n' !in line
    requires line != [] && !IsWhitespace(line[0]) && !IsWhitespace(line[|line| - 1])
    requires !HasMarker(line)
    ensures MarkdownToHtml(line) == "<ul><li>" + line + "</li></ul>"
  {
    TrimByUnchanged(line, IsWhitespace);
    BodySingleLine(line);
  }

  /** A newline-free text wrapped in `<ul>` tags is one line that starts
      with `<` and ends with `>`. */
  lemma WrappedShape(body: string)
    requires '\n' !in body
    ensures var html := "<ul>" + body + "</ul>";
            && '\n' !in html
            && html != [] && !IsWhitespace(html[0]) && !IsWhitespace(html[|html| - 1])
            && !HasMarker(html)
  {
    var html := "<ul>" + body + "</ul>";
    assert html == "<ul>" + (body + "</ul>");
    assert html[0] == '<' && html[|html| - 1] == '>';
    assert html[..2] == "<u";
  }

  /** The output for a non-empty text is one line that starts with `<` and
      ends with `>`. */
  lemma RenderedShape(markdown: string)
    requires markdown != ""
    ensures var html := MarkdownToHtml(markdown);
            && '\n' !in html
            && html != [] && !IsWhitespace(html[0]) && !IsWhitespace(html[|html| - 1])
            && !HasMarker(html)
  {
    BodyHasNoNewline(markdown);
    WrappedShape(Body(markdown));
  }

  /** `markdownToHtml` is not idempotent: rendering its own output wraps that
      output, unescaped, in a further list. */
  lemma RenderTwice(markdown: string)
    requires markdown != ""
    ensures MarkdownToHtml(MarkdownToHtml(markdown)) == "<ul><li>" + MarkdownToHtml(markdown) + "</li></ul>"
  {
    RenderedShape(markdown);
    SingleLineVerbatim(MarkdownToHtml(markdown));
  }

  /** Only one marker is stripped: "- - x" keeps its second marker. */
  lemma OneMarkerOnly()
    ensures StripMarker("- - x") == "- x"
  {
  }

  /** A bulleted line renders as its text alone: the "- " or "* " marker
      goes, and so does trailing whitespace, such as the carriage return a
      CRLF text leaves at the end of each line once it is split at "\n". */
  lemma MarkedLine(marker: char, text: string, pad: string)
    requires marker == '-' || marker == '*'
    requires text != [] && !IsWhitespace(text[0]) && !IsWhitespace(text[|text| - 1])
    requires '\n' !in text && '\n' !in pad
    requires AllIn(pad, IsWhitespace)
    ensures Body([marker, ' '] + text + pad) == "<li>" + text + "</li>"
  {
    var core := [marker, ' '] + text;
    var line := core + pad;
    assert line[0] == marker && !IsWhitespace(marker);
    assert TrimStartBy(line, IsWhitespace) == line;
    TrimEndByPadding(core, pad, IsWhitespace);
    assert core[|core| - 1] == text[|text| - 1];
    assert TrimEndBy(core, IsWhitespace) == core;
    assert Trim.Trim(line) == core;
    assert core[..2] == [marker, ' '] && core[2..] == text;
    assert StripMarker(core) == text;
    assert '\n' !in line by {
      forall k | 0 <= k < |line| ensures line[k] != '\n' {
        if k >= |core| {
          assert line[k] == pad[k - |core|];
        } else if k >= 2 {
          assert line[k] == text[k - 2];
        }
      }
    }
    BodySingleLine(line);
  }
}

=== FILE: text.dfy ===
/** The JavaScript string and array primitives the application relies on:
    `Array.prototype.join`, `String.prototype.split` on a one-character
    separator, `Array.prototype.map` and `Array.prototype.filter`. */
module Text {

  /** `parts.join(sep)`: the parts separated by `sep`; an empty array gives
      the empty string and a single part is returned as it is; the result
      is never shorter than its first part. */
  function Join(parts: seq<string>, sep: string): (r: string)
    ensures |parts| == 0 ==> r == ""
    ensures |parts| == 1 ==> r == parts[0]
    ensures |parts| > 0 ==> |r| >= |parts[0]|
  {
    if |parts| == 0 then ""
    else if |parts| == 1 then parts[0]
    else parts[0] + sep + Join(parts[1..], sep)
  }

  /** Joining two non-empty arrays puts exactly one separator between them. */
  lemma {:induction false} JoinAppend(a: seq<string>, b: seq<string>, sep: string)
    requires |a| > 0 && |b| > 0
    ensures Join(a + b, sep) == Join(a, sep) + sep + Join(b, sep)
    decreases |a|
  {
    if |a| == 1 {
      assert (a + b)[1..] == b;
    } else {
      assert (a + b)[1..] == a[1..] + b;
      JoinAppend(a[1..], b, sep);
    }
  }

  /** With the empty separator, joining is plain concatenation and so
      distributes over `+` for all arrays, empty ones included. */
  lemma JoinEmptySepAppend(a: seq<string>, b: seq<string>)
    ensures Join(a + b, "") == Join(a, "") + Join(b, "")
  {
    if |a| == 0 {
      assert a + b == b;
    } else if |b| == 0 {
      assert a + b == a;
    } else {
      JoinAppend(a, b, "");
    }
  }

  /** The join starts with the first part and ends with the last. */
  lemma {:induction false} JoinEnds(parts: seq<string>, sep: string)
    requires |parts| > 0
    ensures var r := Join(parts, sep);
            && r[..|parts[0]|] == parts[0]
            && |r| >= |parts[|parts| - 1]|
            && r[|r| - |parts[|parts| - 1]|..] == parts[|parts| - 1]
  {
    if |parts| > 1 {
      JoinEnds(parts[1..], sep);
      var rest := Join(parts[1..], sep);
      assert Join(parts, sep) == (parts[0] + sep) + rest;
      assert parts[1..][|parts| - 2] == parts[|parts| - 1];
    }
  }

  /** The index of the first occurrence of `c` in `s`. */
  function FirstIndex(s: string, c: char): (i: nat)
    requires c in s
    ensures i < |s| && s[i] == c && c !in s[..i]
  {
    if s[0] == c then 0
    else
      assert s == [s[0]] + s[1..];
      var j := FirstIndex(s[1..], c);
      assert s[..j + 1] == [s[0]] + s[1..][..j];
      j + 1
  }

  /** The first occurrence is the only one with no earlier occurrence. */
  lemma FirstIndexUnique(s: string, c: char, i: nat)
    requires i < |s| && s[i] == c && c !in s[..i]
    ensures FirstIndex(s, c) == i
  {
    var j := FirstIndex(s, c);
    assert forall k :: 0 <= k < i ==> s[k] != c by {
      forall k | 0 <= k < i
        ensures s[k] != c
      {
        assert s[..i][k] == s[k];
      }
    }
    assert forall k :: 0 <= k < j ==> s[k] != c by {
      forall k | 0 <= k < j
        ensures s[k] != c
      {
        assert s[..j][k] == s[k];
      }
    }
  }

  /** `s.split(c)` for a one-character separator: the maximal pieces between
      occurrences of `c`, always at least one (the empty string splits into
      one empty piece). */
  function Split(s: string, c: char): (r: seq<string>)
    ensures |r| >= 1
    ensures forall k :: 0 <= k < |r| ==> c !in r[k]
    decreases |s|
  {
    if c !in s then [s]
    else
      var i := FirstIndex(s, c);
      [s[..i]] + Split(s[i + 1..], c)
  }

  /** Splitting and re-joining with the same separator gives back the string. */
  lemma {:induction false} JoinSplit(s: string, c: char)
    ensures Join(Split(s, c), [c]) == s
    decreases |s|
  {
    if c in s {
      var i := FirstIndex(s, c);
      var rest := Split(s[i + 1..], c);
      assert Split(s, c) == [s[..i]] + rest;
      JoinSplit(s[i + 1..], c);
      assert ([s[..i]] + rest)[1..] == rest;
      assert s == s[..i] + [c] + s[i + 1..];
    }
  }

  /** Joining pieces free of the separator and splitting again gives back the
      pieces: `Split` is the inverse of `Join` in both directions. */
  lemma {:induction false} SplitJoin(parts: seq<string>, c: char)
    requires |parts| >= 1
    requires forall k :: 0 <= k < |parts| ==> c !in parts[k]
    ensures Split(Join(parts, [c]), c) == parts
    decreases |parts|
  {
    if |parts| > 1 {
      var tail := Join(parts[1..], [c]);
      var s := parts[0] + [c] + tail;
      assert Join(parts, [c]) == s;
      var n := |parts[0]|;
      assert c !in parts[0];
      assert s[..n] == parts[0] && s[n] == c;
      FirstIndexUnique(s, c, n);
      assert s[n + 1..] == tail;
      assert Split(s, c) == [parts[0]] + Split(tail, c);
      forall k | 0 <= k < |parts| - 1
        ensures c !in parts[1..][k]
      {
        assert parts[1..][k] == parts[k + 1];
      }
      SplitJoin(parts[1..], c);
      assert parts == [parts[0]] + parts[1..];
    }
  }

  /** Splitting at an occurrence of the separator splits the two sides
      independently. */
  lemma SplitAppend(a: string, b: string, c: char)
    ensures Split(a + [c] + b, c) == Split(a, c) + Split(b, c)
  {
    var pa := Split(a, c);
    var pb := Split(b, c);
    assert a + [c] + b == Join(pa + pb, [c]) by {
      JoinSplit(a, c);
      JoinSplit(b, c);
      JoinAppend(pa, pb, [c]);
    }
    assert forall k :: 0 <= k < |pa + pb| ==> c !in (pa + pb)[k] by {
      forall k | 0 <= k < |pa + pb|
        ensures c !in (pa + pb)[k]
      {
        if k < |pa| {
          assert (pa + pb)[k] == pa[k];
        } else {
          assert (pa + pb)[k] == pb[k - |pa|];
        }
      }
    }
    SplitJoin(pa + pb, c);
  }

  /** `xs.map(f)`. */
  function Map<A, B>(f: A -> B, xs: seq<A>): (r: seq<B>)
    ensures |r| == |xs|
    ensures forall k :: 0 <= k < |xs| ==> r[k] == f(xs[k])
  {
    seq(|xs|, i requires 0 <= i < |xs| => f(xs[i]))
  }

  /** Mapping distributes over concatenation. */
  lemma MapAppend<A, B>(f: A -> B, a: seq<A>, b: seq<A>)
    ensures Map(f, a + b) == Map(f, a) + Map(f, b)
  {
    var whole := Map(f, a + b);
    var parts := Map(f, a) + Map(f, b);
    forall k | 0 <= k < |whole|
      ensures whole[k] == parts[k]
    {
      if k < |a| {
        assert (a + b)[k] == a[k];
      } else {
        assert (a + b)[k] == b[k - |a|];
      }
    }
  }

  /** `xs.filter(p)`: the elements that satisfy `p`, in their order. */
  function Filter<T(==,!new)>(p: T -> bool, xs: seq<T>): (r: seq<T>)
    ensures |r| <= |xs|
    ensures forall x :: x in r <==> x in xs && p(x)
    decreases |xs|
  {
    if |xs| == 0 then []
    else
      assert xs == [xs[0]] + xs[1..];
      if p(xs[0]) then [xs[0]] + Filter(p, xs[1..]) else Filter(p, xs[1..])
  }

  /** Filtering distributes over concatenation. */
  lemma {:induction false} FilterAppend<T(!new)>(p: T -> bool, a: seq<T>, b: seq<T>)
    ensures Filter(p, a + b) == Filter(p, a) + Filter(p, b)
    decreases |a|
  {
    if |a| > 0 {
      var ab := a + b;
      assert ab[0] == a[0];
      assert ab[1..] == a[1..] + b;
      FilterAppend(p, a[1..], b);
    } else {
      assert a + b == b;
    }
  }

  /** A character found in neither the parts nor the separator is not in
      their join. */
  lemma {:induction false} JoinAvoids(parts: seq<string>, sep: string, c: char)
    requires c !in sep
    requires forall k :: 0 <= k < |parts| ==> c !in parts[k]
    ensures c !in Join(parts, sep)
    decreases |parts|
  {
    if |parts| > 1 {
      JoinAvoids(parts[1..], sep, c);
    }
  }
}

=== FILE: trim.dfy ===
/** `String.prototype.trim` and the ECMAScript notion of whitespace it uses.
    The trimming functions are stated for an arbitrary character class `ws`
    and instantiated with the ECMAScript set in `Trim`. Their properties are
    lemmas, so that a proof mentioning a trimmed string only pays for them
    where it asks for them. */
module Trim {

  /** ECMAScript WhiteSpace and LineTerminator code points: the characters
      `String.prototype.trim` removes. */
  predicate IsWhitespace(ch: char)
  {
    || ch == '\t' || ch == '\n' || ch == '\U{000B}' || ch == '\U{000C}' || ch == '\r'
    || ch == ' ' || ch == '\U{00A0}' || ch == '\U{1680}'
    || ('\U{2000}' <= ch <= '\U{200A}')
    || ch == '\U{2028}' || ch == '\U{2029}' || ch == '\U{202F}' || ch == '\U{205F}'
    || ch == '\U{3000}' || ch == '\U{FEFF}'
  }

  predicate AllIn(s: string, ws: char -> bool)
  {
    forall k :: 0 <= k < |s| ==> ws(s[k])
  }

  /** A concatenation lies in `ws` exactly when both halves do. */
  lemma AllInConcat(x: string, y: string, ws: char -> bool)
    ensures AllIn(x + y, ws) <==> AllIn(x, ws) && AllIn(y, ws)
  {
    if AllIn(x + y, ws) {
      assert forall k :: 0 <= k < |x| ==> x[k] == (x + y)[k];
      assert forall k :: 0 <= k < |y| ==> y[k] == (x + y)[k + |x|];
    }
  }

  /** Drops the longest prefix made of characters in `ws`. */
  function TrimStartBy(s: string, ws: char -> bool): string
    decreases |s|
  {
    if |s| > 0 && ws(s[0]) then TrimStartBy(s[1..], ws) else s
  }

  /** Drops the longest suffix made of characters in `ws`. */
  function TrimEndBy(s: string, ws: char -> bool): string
    decreases |s|
  {
    if |s| > 0 && ws(s[|s| - 1]) then TrimEndBy(s[..|s| - 1], ws) else s
  }

  /** What `TrimStartBy` keeps is a suffix starting outside `ws`, and what it
      drops lies in `ws`; it keeps nothing exactly when all of `s` is in `ws`. */
  lemma {:induction false} TrimStartBySpec(s: string, ws: char -> bool)
    ensures var r := TrimStartBy(s, ws);
            && |r| <= |s| && r == s[|s| - |r|..]
            && AllIn(s[..|s| - |r|], ws)
            && (r == [] || !ws(r[0]))
            && (r == [] <==> AllIn(s, ws))
    decreases |s|
  {
    if |s| > 0 && ws(s[0]) {
      TrimStartBySpec(s[1..], ws);
      var r := TrimStartBy(s[1..], ws);
      assert s[..|s| - |r|] == [s[0]] + s[1..][..|s| - 1 - |r|];
      AllInConcat([s[0]], s[1..], ws);
      assert s == [s[0]] + s[1..];
    }
  }

  /** The mirror image of `TrimStartBySpec` for the end of the string. */
  lemma {:induction false} TrimEndBySpec(s: string, ws: char -> bool)
    ensures var r := TrimEndBy(s, ws);
            && |r| <= |s| && r == s[..|r|]
            && AllIn(s[|r|..], ws)
            && (r == [] || !ws(r[|r| - 1]))
            && (r == [] <==> AllIn(s, ws))
    decreases |s|
  {
    if |s| > 0 && ws(s[|s| - 1]) {
      var init := s[..|s| - 1];
      TrimEndBySpec(init, ws);
      var r := TrimEndBy(init, ws);
      assert s[|r|..] == init[|r|..] + [s[|s| - 1]];
      AllInConcat(init[|r|..], [s[|s| - 1]], ws);
      AllInConcat(init, [s[|s| - 1]], ws);
      assert s == init + [s[|s| - 1]];
    }
  }

  /** `r` is a slice of `s` with only characters of `ws` cut off on either
      side. */
  ghost predicate IsInnerSlice(s: string, r: string, ws: char -> bool)
  {
    exists i :: 0 <= i <= |s| - |r| && r == s[i..i + |r|]
                && AllIn(s[..i], ws) && AllIn(s[i + |r|..], ws)
  }

  /** Removes characters of `ws` from both ends. */
  function TrimBy(s: string, ws: char -> bool): string
  {
    TrimEndBy(TrimStartBy(s, ws), ws)
  }

  /** What `TrimBy` keeps is a slice of `s` with only `ws` characters cut
      off on either side. */
  lemma TrimBySlice(s: string, ws: char -> bool)
    ensures IsInnerSlice(s, TrimBy(s, ws), ws)
  {
    var t := TrimStartBy(s, ws);
    var r := TrimEndBy(t, ws);
    TrimStartBySpec(s, ws);
    TrimEndBySpec(t, ws);
    var i := |s| - |t|;
    assert t == s[i..];
    assert r == t[..|r|] && AllIn(t[|r|..], ws);
    SliceOfSuffix(s, i, |r|);
    assert r == s[i..i + |r|];
    assert AllIn(s[i + |r|..], ws);
    assert 0 <= i <= |s| - |r| && AllIn(s[..i], ws);
  }

  /** Slicing a suffix of `s` is slicing `s` itself. */
  lemma SliceOfSuffix(s: string, i: nat, n: nat)
    requires i + n <= |s|
    ensures s[i..][..n] == s[i..i + n]
    ensures s[i..][n..] == s[i + n..]
  {
  }

  /** What `TrimBy` keeps starts and ends outside `ws`. */
  lemma TrimByEnds(s: string, ws: char -> bool)
    ensures var r := TrimBy(s, ws);
            r == [] || (!ws(r[0]) && !ws(r[|r| - 1]))
  {
    var t := TrimStartBy(s, ws);
    var r := TrimEndBy(t, ws);
    TrimStartBySpec(s, ws);
    TrimEndBySpec(t, ws);
    if r != [] {
      assert r[0] == t[0];
    }
  }

  /** `TrimBy` keeps nothing exactly when all of `s` lies in `ws`. */
  lemma TrimByEmpty(s: string, ws: char -> bool)
    ensures TrimBy(s, ws) == [] <==> AllIn(s, ws)
  {
    var t := TrimStartBy(s, ws);
    TrimStartBySpec(s, ws);
    TrimEndBySpec(t, ws);
    if t != [] {
      assert !AllIn(s, ws) by {
        assert s[|s| - |t|] == t[0];
      }
    }
  }

  /** Trimming both ends leaves a slice of `s` whose first and last
      characters are outside `ws`, with only `ws` characters cut off on
      either side; it is empty exactly when `s` lies wholly in `ws`. */
  lemma TrimBySpec(s: string, ws: char -> bool)
    ensures var r := TrimBy(s, ws);
            && IsInnerSlice(s, r, ws)
            && (r == [] || (!ws(r[0]) && !ws(r[|r| - 1])))
            && (r == [] <==> AllIn(s, ws))
  {
    TrimBySlice(s, ws);
    TrimByEnds(s, ws);
    TrimByEmpty(s, ws);
  }

  /** Characters of `ws` appended at the end are all trimmed away again. */
  lemma {:induction false} TrimEndByPadding(s: string, pad: string, ws: char -> bool)
    requires AllIn(pad, ws)
    ensures TrimEndBy(s + pad, ws) == TrimEndBy(s, ws)
    decreases |pad|
  {
    if |pad| > 0 {
      var init := pad[..|pad| - 1];
      assert (s + pad)[..|s + pad| - 1] == s + init;
      assert ws((s + pad)[|s + pad| - 1]);
      assert AllIn(init, ws) by {
        forall k | 0 <= k < |init| ensures ws(init[k]) {
          assert init[k] == pad[k];
        }
      }
      TrimEndByPadding(s, init, ws);
    } else {
      assert s + pad == s;
    }
  }

  /** A string that already starts and ends outside `ws` is left alone. */
  lemma TrimByUnchanged(s: string, ws: char -> bool)
    requires s != [] && !ws(s[0]) && !ws(s[|s| - 1])
    ensures TrimBy(s, ws) == s
  {
    assert TrimStartBy(s, ws) == s;
  }

  /** Trimming never introduces a character: what it returns is made of
      characters of `s`. */
  lemma TrimByChars(s: string, ws: char -> bool, c: char)
    requires c !in s
    ensures c !in TrimBy(s, ws)
  {
    TrimBySpec(s, ws);
    var r := TrimBy(s, ws);
    var i :| 0 <= i <= |s| - |r| && r == s[i..i + |r|]
              && AllIn(s[..i], ws) && AllIn(s[i + |r|..], ws);
    forall k | 0 <= k < |r|
      ensures r[k] != c
    {
      assert r[k] == s[i + k];
    }
  }

  /** `s.trim()`. */
  function Trim(s: string): string
  {
    TrimBy(s, IsWhitespace)
  }
}

=== FILE: types.dfy ===
/** The records exchanged between the grading service, the flow controller
    and the report, as declared in src/types.ts, and the values a rejected
    promise can carry. */
module Types {
  import opened Wrappers

  /** The four grades of the result schema. */
  datatype Grade = Distinction | Merit | Pass | NotAchieved

  /** The string a grade is carried as in the service's JSON. */
  function GradeName(g: Grade): string
  {
    match g
    case Distinction => "Distinction"
    case Merit => "Merit"
    case Pass => "Pass"
    case NotAchieved => "Not Achieved"
  }

  /** The verdict on one criterion code such as "P1", "M2" or "D1". */
  datatype CriterionAnalysis = CriterionAnalysis(criterion: string, isFulfilled: bool, explanation: string)

  /** One grading result. The completion percentage is a JavaScript number
      that the application only displays, so it is kept as an opaque real. */
  datatype AnalysisResult = AnalysisResult(
    achievedGrade: Grade,
    criteriaAnalysis: seq<CriterionAnalysis>,
    completionPercentage: real,
    suggestionsForImprovement: string,
    tipsAndTricks: string)

  /** What `JSON.parse(jsonText) as AnalysisResult` yields. The cast checks
      nothing, so the reply can be `null` (`None`) as well as a record. */
  type ParsedResult = Option<AnalysisResult>

  /** A value a promise is rejected with: an `Error` instance with its
      message, or anything else (a DOM `ProgressEvent`, a string, ...). */
  datatype Thrown = ErrorValue(message: string) | OtherValue

  /** `err instanceof Error ? err.message : fallback`: the message of an
      `Error`, and the fallback text for any other thrown value. */
  function MessageOf(t: Thrown, fallback: string): (r: string)
    ensures t.ErrorValue? ==> r == t.message
    ensures t.OtherValue? ==> r == fallback
  {
    match t
    case ErrorValue(m) => m
    case OtherValue => fallback
  }
}

=== FILE: wrappers.dfy ===
/** An optional value (JavaScript `null` versus a value) and the outcome of
    a promise (resolved with a value or rejected with a thrown value). */
module Wrappers {

  datatype Option<+T> = None | Some(value: T)

  datatype Result<+T, +E> = Success(value: T) | Failure(error: E)
}
